=== FILE: README.md ===
# Bluetooth device scanner: list reconciliation and advertisement model

A Dafny model of the sequential logic inside the DIPS Bluetooth scanner: an
Android app that lists paired and discovered Bluetooth devices, and a
BlueZ peripheral script that publishes an LE advertisement.

What is modelled, as pure functions over immutable values:

- **The device list** (`ListItems`): the three row kinds `Header`, `Status` and
  `DataItem` as one sum type. It covers the data-item constructors and their
  address check, and the `Name` and `Services` setters with the title and
  subtitle they derive. It also covers the default RSSI of 0 and the `Text`
  setter of every kind.
- **Reconciliation** (`MainActivity`): `UpdateList` replaces the first data
  item with the same address, or appends the item. Also here: the initial
  list built by `PopulateListView`, the BLE scan-result filter of
  `AdScanCallback`, and the `_isDiscovering` guard on scan start and stop.
- **Row rendering** (`ListViewAdapter`): `Count`, `GetItemId`, and the strings
  `GetView` puts on each kind of row, including the RSSI label. An
  out-of-range position returns the recycled view.
- **Broadcast dispatch** (`DeviceReceiver`): `OnReceive` maps an action and a
  device to an abstract effect (`Upsert`, `SetStatus` or `NoChange`).
  `BondDescription` names the bond states.
- **The LE advertisement** (`Advertise`): the object path, the `service_uuid`
  property with its two-UUID bound, the property map, `GetAll`, the `add_*`
  helpers, and the concrete `TestAdvertisement`.

Shared helpers: `Wrappers` (`Option` for null, `Result` for a thrown exception),
`Decimal` (integer to decimal text, with a parser that proves it is injective),
and `StringJoin` (`string.Join(", ", …)`, with the split that inverts it).

Behaviour worth noting:

- The list itself never rejects an empty address. Only the data-item
  constructor throws `ArgumentNullException`.
- A second data item with the same address is not treated as an internal
  error. `FindIndex` simply takes the first match.
- Signal strength is a plain `int`, and 0 means "no reading". A genuine
  reading of 0 is therefore shown as "(not advertising)".
- Reconciling the same item twice gives the same list as reconciling it once.
  This holds for every list, not only lists whose addresses are distinct.

## Model

| member | source | states |
|---|---|---|
| ListItems.TypeOf | android/DipsAndroidBluetoothScanner/ListView/BluetoothListDataItem.cs:31 | each item kind reports its own fixed `ListItemType`, and the tag identifies the kind; the header and status classes do the same at HeaderListItem.cs:10 and StatusHeaderListItem.cs:10 |
| ListItems.DisplayText | android/DipsAndroidBluetoothScanner/ListView/BluetoothListDataItem.cs:36-41 | the title equals the address exactly when the name is null or empty, and is otherwise the address, " (", the name and ")" |
| ListItems.DisplayTextRoundTrip | android/DipsAndroidBluetoothScanner/ListView/BluetoothListDataItem.cs:39-41 | the name can be read back from the title (null and empty both read as empty) |
| ListItems.ServicesText | android/DipsAndroidBluetoothScanner/ListView/BluetoothListDataItem.cs:50-55 | the subtitle is empty for null or empty services, otherwise the services joined with ", " |
| ListItems.ServicesTextRoundTrip | android/DipsAndroidBluetoothScanner/ListView/BluetoothListDataItem.cs:53-55 | splitting the subtitle at ", " gives back a non-empty list of comma-free service UUIDs, in order |
| StringJoin.JoinAppend | android/DipsAndroidBluetoothScanner/ListView/BluetoothListDataItem.cs:55 | joining works left to right: one more part adds the separator and that part at the end |
| ListItems.NewDataItem | android/DipsAndroidBluetoothScanner/ListView/BluetoothListDataItem.cs:17-27 | it throws ArgumentNull exactly when the address is null or empty; otherwise it stores the address, name and services, RSSI is 0, and both display strings are derived |
| ListItems.NewDataItemFromAddress | android/DipsAndroidBluetoothScanner/ListView/BluetoothListDataItem.cs:13 | it fails exactly on a null or empty address; otherwise the item is the address with name "", null services, RSSI 0, the address as title and an empty subtitle |
| ListItems.NewDataItemWithName | android/DipsAndroidBluetoothScanner/ListView/BluetoothListDataItem.cs:15 | it fails exactly on a null or empty address; otherwise it stores the address and name with null services, RSSI 0, an empty subtitle and the derived title |
| ListItems.SetName | android/DipsAndroidBluetoothScanner/ListView/BluetoothListDataItem.cs:33-43 | the title is always re-derived from the address and the new name; address, services, RSSI and subtitle are kept; well-formedness is preserved |
| ListItems.SetServices | android/DipsAndroidBluetoothScanner/ListView/BluetoothListDataItem.cs:47-57 | the subtitle is always re-derived from the new services; address, name, RSSI and title are kept; well-formedness is preserved |
| ListItems.SetRssi | android/DipsAndroidBluetoothScanner/ListView/BluetoothListDataItem.cs:45 | only the RSSI changes |
| ListItems.NewHeader | android/DipsAndroidBluetoothScanner/ListView/HeaderListItem.cs:5-10 | any text, including empty, is stored verbatim in a Header-typed item |
| ListItems.NewStatus | android/DipsAndroidBluetoothScanner/ListView/StatusHeaderListItem.cs:5-10 | any text, including empty, is stored verbatim in a Status-typed item |
| ListItems.SetText | android/DipsAndroidBluetoothScanner/ListView/StatusHeaderListItem.cs:12 | the kind is kept and the text is replaced; a header or status item becomes exactly the item built from the new text; the same settable `Text` is at HeaderListItem.cs:12 and BluetoothListDataItem.cs:59 |
| ListViewAdapter.Count | android/DipsAndroidBluetoothScanner/ListView/ListViewAdapter.cs:22 | the row count is the number of items |
| ListViewAdapter.GetItemId | android/DipsAndroidBluetoothScanner/ListView/ListViewAdapter.cs:26-29 | a row's id is its position |
| ListViewAdapter.RssiLabel | android/DipsAndroidBluetoothScanner/ListView/ListViewAdapter.cs:69-72 | the label starts with "RSSI: "; it is "RSSI: (not advertising)" exactly when RSSI is 0; otherwise the tail is the reading in canonical decimal (no leading zeros) and parses back to it |
| ListViewAdapter.RssiLabelInjective | android/DipsAndroidBluetoothScanner/ListView/ListViewAdapter.cs:69-72 | two readings get the same label only if they are equal |
| ListViewAdapter.Render | android/DipsAndroidBluetoothScanner/ListView/ListViewAdapter.cs:39-77 | the item kind picks the layout; header and status rows show exactly the item's text and are non-clickable; device rows show title, subtitle and RSSI label |
| ListViewAdapter.GetView | android/DipsAndroidBluetoothScanner/ListView/ListViewAdapter.cs:31-85 | an in-range position renders that item; an out-of-range one is caught and the recycled view comes back unchanged |
| ListViewAdapter.EveryRowRenders | android/DipsAndroidBluetoothScanner/ListView/ListViewAdapter.cs:22-37 | every id below the row count renders its own item, and the first id past the end falls into the exception handler |
| ListViewAdapter.RenderedRowIdentifiesDevice | android/DipsAndroidBluetoothScanner/ListView/ListViewAdapter.cs:59-72 | a device row's title starts with the address and yields the name; its RSSI line determines the reading |
| MainActivity.FindIndex | android/DipsAndroidBluetoothScanner/MainActivity.cs:206-208 | the result is -1 exactly when no data item has the address; otherwise it is the first such data item, and headers never match |
| MainActivity.UpdateList | android/DipsAndroidBluetoothScanner/MainActivity.cs:200-221 | the list grows by one exactly when the address is new; the item is always present; every entry without that address, headers and status included, keeps its position and value |
| MainActivity.UpdateListAppends | android/DipsAndroidBluetoothScanner/MainActivity.cs:210-214 | a new address is appended after every existing entry |
| MainActivity.UpdateListReplaces | android/DipsAndroidBluetoothScanner/MainActivity.cs:215-219 | a known address replaces its first entry wholesale, in place |
| MainActivity.UpdateListKeepsDistinct | android/DipsAndroidBluetoothScanner/MainActivity.cs:205-219 | if data-item addresses are pairwise distinct before, they are after |
| MainActivity.UpdateListIdempotent | android/DipsAndroidBluetoothScanner/MainActivity.cs:205-219 | applying the same item twice equals applying it once, for any list |
| MainActivity.UpdateAllKeepsDistinct | android/DipsAndroidBluetoothScanner/MainActivity.cs:200-221 | any stream of updates keeps addresses distinct, never shrinks the list and never moves a header or status entry |
| MainActivity.WithoutZeroUuid | android/DipsAndroidBluetoothScanner/MainActivity.cs:184-187 | the all-zero UUID is removed, and every other UUID is kept |
| MainActivity.WithoutZeroUuidAppend | android/DipsAndroidBluetoothScanner/MainActivity.cs:185-187 | the filter keeps relative order: it distributes over concatenation |
| MainActivity.WithoutZeroUuidKeepsRealUuids | android/DipsAndroidBluetoothScanner/MainActivity.cs:185-187 | a UUID list without the placeholder is returned unchanged |
| MainActivity.BondedServices | android/DipsAndroidBluetoothScanner/MainActivity.cs:185-187 | null UUIDs give null services; otherwise the services are exactly the UUIDs with the zero UUID removed, in order |
| MainActivity.BondedItems | android/DipsAndroidBluetoothScanner/MainActivity.cs:180-192 | one item per bonded device, in order, with its address, name and filtered services; it fails exactly when some address is null or empty |
| MainActivity.PopulateListView | android/DipsAndroidBluetoothScanner/MainActivity.cs:172-198 | the list is the "PREVIOUSLY PAIRED" header, the bonded items, then the "DISCOVERED" status, so 2 + bonded count entries (also for none) |
| MainActivity.InitialListDistinct | android/DipsAndroidBluetoothScanner/MainActivity.cs:174-194 | bonded devices with distinct addresses give an initial list with distinct data-item addresses |
| MainActivity.ReconcileScenario | android/DipsAndroidBluetoothScanner/MainActivity.cs:172-221 | an empty bonded set gives just the two headers; a new phone is appended third; the same address with a new name, no services and a new reading replaces it in place |
| MainActivity.OnScanResult | android/DipsAndroidBluetoothScanner/MainActivity.cs:29-48 | a result is dropped exactly when the filter is non-empty and no UUID equals it; a forwarded item carries the address, name, all UUIDs in order and the RSSI |
| MainActivity.ApplyScanResult | android/DipsAndroidBluetoothScanner/MainActivity.cs:36-47 | it throws exactly when the filter UUID is advertised and the address is null or empty; a result without the filter UUID leaves the list alone; one with it is appended exactly when its address is not yet listed, and otherwise refreshes the first row with that address in place; the forwarded item itself (name and UUIDs included) is listed, and every entry with another address keeps its place |
| MainActivity.ApplyScanResultKeepsDistinct | android/DipsAndroidBluetoothScanner/MainActivity.cs:47 | scan results keep data-item addresses distinct |
| MainActivity.RequestOf | android/DipsAndroidBluetoothScanner/MainActivity.cs:116-141 | create and resume ask to start scanning; pause and destroy ask to stop |
| MainActivity.StartScanning | android/DipsAndroidBluetoothScanner/MainActivity.cs:144-157 | afterwards the flag is set; the platform start call is made exactly when it was clear |
| MainActivity.StopScanning | android/DipsAndroidBluetoothScanner/MainActivity.cs:159-170 | afterwards the flag is clear; the platform stop call is made exactly when it was set |
| MainActivity.RunAlternates | android/DipsAndroidBluetoothScanner/MainActivity.cs:144-170 | for any request sequence, platform calls alternate start/stop, and the final flag is flipped once per call |
| MainActivity.LifecycleCallsAlternate | android/DipsAndroidBluetoothScanner/MainActivity.cs:89-142 | from the initial state, the first platform call is a start and no two adjacent calls are the same |
| DeviceReceiver.BondDescription | android/DipsAndroidBluetoothScanner/BluetoothDeviceReceiver.cs:46-52 | Bonded, Bonding and None map to their names; every other value maps to "ERROR", in both directions |
| DeviceReceiver.OnReceive | android/DipsAndroidBluetoothScanner/BluetoothDeviceReceiver.cs:11-62 | found and not bonded gives an upsert exactly when the address is present, carrying address, name and null services, and throws otherwise; found and bonded does nothing; start and finish set the exact status text; other actions do nothing |
| DeviceReceiver.BondedDevicesNeverUpserted | android/DipsAndroidBluetoothScanner/BluetoothDeviceReceiver.cs:22-32 | no broadcast about a bonded device adds or refreshes a row |
| Advertise.NewAdvertisement | peripheral/advertise.py:52-63 | a negative index fails with an invalid object path; otherwise all optional fields start unset, the path is exactly PATH_BASE followed by the index in canonical decimal, the `path` property returns it, and the index can be read back from it |
| Advertise.PathValidIffNonNegative | peripheral/advertise.py:53 | PATH_BASE followed by the index is a valid D-Bus object path exactly when the index is not negative |
| Advertise.Path | peripheral/advertise.py:93-95 | the `path` property returns the stored path exactly when it is a valid D-Bus object path, and otherwise the conversion fails with an invalid object path |
| Advertise.PathsDistinct | peripheral/advertise.py:53 | two advertisements built with different indices have different paths |
| Advertise.ServiceUuid | peripheral/advertise.py:97-99 | the getter returns the stored list, or [] when nothing is stored |
| Advertise.SetServiceUuid | peripheral/advertise.py:101-112 | a single string becomes a one-element list; at most two are stored as given; more than two raises ValueError; no other field changes |
| Advertise.SetServiceUuidKeepsBound | peripheral/advertise.py:108-112 | a successful assignment never stores more than two UUIDs |
| Advertise.Properties | peripheral/advertise.py:65-89 | Type is always present; each optional property is present exactly when its field is set and non-empty; Includes is ["tx-power"] exactly when tx power is on |
| Advertise.GetProperties | peripheral/advertise.py:91 | the result has the single key 'org.bluez.LEAdvertisement1', holding the properties |
| Advertise.GetAll | peripheral/advertise.py:137-142 | any other interface raises InvalidArgs; the advertisement interface gets exactly the inner properties map |
| Advertise.AddSolicitUuid | peripheral/advertise.py:114-117 | the UUID is appended to the (possibly unset) list; nothing else changes |
| Advertise.AddSolicitUuidsInOrder | peripheral/advertise.py:114-117 | repeated appends keep every UUID in the order added |
| Advertise.AddManufacturerData | peripheral/advertise.py:119-122 | the code's entry is set or overwritten; the key set gains only that code; other codes and fields are unchanged |
| Advertise.AddServiceData | peripheral/advertise.py:124-127 | the UUID's entry is set or overwritten; the key set gains only that UUID; other UUIDs and fields are unchanged |
| Advertise.AddData | peripheral/advertise.py:129-132 | the type's entry is set or overwritten; the key set gains only that type; other types and fields are unchanged |
| Advertise.AddedEntriesAdvertised | peripheral/advertise.py:70-89 | whatever an add helper stores shows up under the matching property |
| Advertise.TestAdvertisement | peripheral/advertise.py:151-159 | it fails exactly for a negative index; otherwise it stays within the two-UUID bound, advertises ["cafe"], stores the local name as given, and is registered under PATH_BASE followed by the index |
| Advertise.TestAdvertisementProperties | peripheral/advertise.py:151-159 | for any non-negative index it is built, and it publishes type, service UUIDs, manufacturer, service and raw data, and tx power; it has no solicited UUIDs; the local name is published, as given, exactly when it is non-empty |

## Left out

- Android lifecycle, permission requests, adapter acquisition, toasts and view inflation are platform I/O. Rendering returns a `Row` value instead of an inflated view. Attaching the adapter to the list view in `PopulateListView` and the `NotifyDataSetChanged` call at the end of `UpdateList` are UI effects too, so both return the new list instead.
- `MainActivity.GetInstance`, the process-wide activity, is not modelled. The list is passed in and returned explicitly.
- The null-adapter path of `UpdateList` is not modelled. That path dereferences null, so the list is always present in the model.
- `BluetoothDeviceReceiver` calls `UpdateAdapter` and `UpdateListAdapterStatus`, and neither is defined in the activity shown. The receiver therefore returns an abstract `Effect` and is not wired to `UpdateList`.
- Debug logging in the receiver is not modelled, including the bond-change message built with `BondDescription`. The `print` calls in `GetAll` and `Release` are not modelled either.
- Concurrency is not modelled. Callbacks arrive on platform threads, but each event is one sequential step here.
- Java `UUID` parsing and the culture-sensitive `string.CompareTo` are both modelled as exact string equality.
- ListViewAdapter.RssiLabel: a negative reading is written with "-". C# interpolation uses the current culture's negative sign, and cultures with a different sign are not modelled.
- A null `device` extra in a broadcast, or a null `ScanRecord` in a scan result, is not modelled. The source dereferences both and would throw `NullReferenceException`, but the model's device and scan result are always present.
- Null elements inside a services or UUID list are not modelled. They are the `u?.ToString()` cases, and the platform does not produce them.
- Advertise.SetServiceUuid: the error path returns no new state. Before raising, the source turns an unset list into `[]`, but the getter returns `[]` either way, so nothing observable is lost.
- `AdHeadlessConfig.cs` is not part of this model. It holds only UUID constants and an unimplemented parser.
- The D-Bus and BlueZ plumbing is not modelled: `find_adapter`, `main`, signal handlers, the main loop and `Release`. D-Bus arrays, dictionaries and strings are plain sequences, maps and strings, and property names are a `Key` datatype whose `Name` gives the bus string.
- D-Bus type checks on serialisation are not modelled, such as a manufacturer code fitting in 16 bits. The one exception is the byte range: data passed to the `add_*` helpers is a sequence of `Byte`, a type that holds 0 to 255, so that check is part of the type. The object-path check the bus library makes when the advertisement is registered is modelled by `IsObjectPath`, following the D-Bus specification's object-path rule.

=== FILE: advertise.dfy ===
/** The `Advertisement` record of the peripheral's BlueZ LE advertisement:
    its object path, the bounded service-UUID property, the optional
    fields, the property map handed to BlueZ, and the helpers that fill it
    in. D-Bus wrapper types are plain sequences, maps and strings here. */
module Advertise {
  import opened Wrappers
  import Decimal

  /** An element of a D-Bus byte array (signature `y`). */
  newtype Byte = x: int | 0 <= x < 256

  const PathBase: string := "/org/bluez/example/advertisement"
  const LeAdvertisementIface: string := "org.bluez.LEAdvertisement1"

  /** Section 1.1 of the Supplement to the Bluetooth Core Specification
      lets an advertisement carry at most two service UUIDs. */
  const MaxServiceUuids: nat := 2

  const TooManyUuids: string := "Only two service UUIDs can be advertised simultaneously"

  /** The exceptions raised: `ValueError` by the service-UUID setter,
      `InvalidArgsException` by `GetAll`, and the `ValueError` the bus
      library raises when the object is registered under a path that is not
      a valid D-Bus object path. */
  datatype AdError = ValueError(message: string) | InvalidArgs | InvalidObjectPath(path: string)

  /** A character allowed in an element of a D-Bus object path. */
  predicate IsPathElementChar(c: char) {
    ('A' <= c <= 'Z') || ('a' <= c <= 'z') || ('0' <= c <= '9') || c == '_'
  }

  /** A D-Bus object path: "/" alone, or "/"-separated non-empty elements of
      letters, digits and underscores, with no trailing "/". */
  predicate IsObjectPath(s: string) {
    || s == "/"
    || (&& |s| >= 2
        && s[0] == '/'
        && s[|s| - 1] != '/'
        && (forall i :: 0 <= i < |s| ==> s[i] == '/' || IsPathElementChar(s[i]))
        && (forall i :: 0 <= i < |s| - 1 ==> s[i] == '/' ==> s[i + 1] != '/'))
  }

  /** The advertisement's state. Every optional field starts as `None`; the
      internal service-UUID list is reached through `ServiceUuid`. */
  datatype Advertisement = Advertisement(
    objectPath: string,
    serviceUuid: Option<seq<string>>,
    adType: string,
    manufacturerData: Option<map<int, seq<Byte>>>,
    solicitUuids: Option<seq<string>>,
    serviceData: Option<map<string, seq<Byte>>>,
    localName: Option<string>,
    includeTxPower: bool,
    data: Option<map<int, seq<Byte>>>)

  /** The base path followed by a digit run is a valid object path. */
  lemma BaseWithDigitsIsObjectPath(digits: string)
    requires |digits| >= 1 && Decimal.AllDigits(digits)
    ensures IsObjectPath(PathBase + digits)
  {
    var s := PathBase + digits;
    forall i | 0 <= i < |s|
      ensures s[i] == '/' || IsPathElementChar(s[i])
    {
      if i >= |PathBase| {
        assert s[i] == digits[i - |PathBase|];
      }
    }
  }

  /** The advertisement's path is a valid object path exactly when the
      index is not negative. */
  lemma PathValidIffNonNegative(index: int)
    ensures IsObjectPath(PathBase + Decimal.IntToString(index)) <==> index >= 0
  {
    var s := PathBase + Decimal.IntToString(index);
    if index >= 0 {
      BaseWithDigitsIsObjectPath(Decimal.IntToString(index));
    } else {
      assert s[|PathBase|] == '-';
      assert !(s[|PathBase|] == '/' || IsPathElementChar(s[|PathBase|]));
    }
  }

  /** `Advertisement(bus, index, advertising_type)`: the path is the base
      followed by the index in decimal, and every optional field starts
      unset. A negative index puts a "-" into the path, which registering
      the object on the bus rejects. */
  function NewAdvertisement(index: int, advertisingType: string): (r: Result<Advertisement, AdError>)
    ensures r.Failure? <==> index < 0
    ensures r.Failure? ==> r.error == InvalidObjectPath(PathBase + Decimal.IntToString(index))
    ensures r.Success? ==>
      var ad := r.value;
      && ad.adType == advertisingType
      && ad.serviceUuid.None? && ad.solicitUuids.None? && ad.localName.None?
      && ad.manufacturerData.None? && ad.serviceData.None? && ad.data.None?
      && !ad.includeTxPower
      && ad.objectPath == PathBase + Decimal.IntToString(index)
      && Path(ad) == Success(ad.objectPath)
      && Decimal.ParseInt(ad.objectPath[|PathBase|..]) == Some(index)
  {
    var path := PathBase + Decimal.IntToString(index);
    PathValidIffNonNegative(index);
    if !IsObjectPath(path) then Failure(InvalidObjectPath(path))
    else
      var ad := Advertisement(path, None, advertisingType, None, None, None, None, false, None);
      assert ad.objectPath[|PathBase|..] == Decimal.IntToString(index);
      Decimal.IntRoundTrip(index);
      Success(ad)
  }

  /** The `path` property: the stored path converted to a D-Bus object
      path, a conversion that rejects text breaking the object-path rule. */
  function Path(ad: Advertisement): (r: Result<string, AdError>)
    ensures r.Success? <==> IsObjectPath(ad.objectPath)
    ensures r.Success? ==> r.value == ad.objectPath
    ensures r.Failure? ==> r.error == InvalidObjectPath(ad.objectPath)
  {
    if IsObjectPath(ad.objectPath) then Success(ad.objectPath)
    else Failure(InvalidObjectPath(ad.objectPath))
  }

  /** Advertisements built with different indices have different paths. */
  lemma PathsDistinct(i: int, j: int, t: string, u: string)
    requires i != j
    ensures NewAdvertisement(i, t).Success? && NewAdvertisement(j, u).Success? ==>
      Path(NewAdvertisement(i, t).value).value != Path(NewAdvertisement(j, u).value).value
  {
  }

  /** The `service_uuid` getter: the stored list, or empty when unset. */
  function ServiceUuid(ad: Advertisement): (r: seq<string>)
    ensures ad.serviceUuid.None? ==> r == []
    ensures ad.serviceUuid.Some? ==> r == ad.serviceUuid.value
  {
    ad.serviceUuid.GetOr([])
  }

  /** What may be assigned to `service_uuid`: one string or a sequence. */
  datatype UuidValue = Single(uuid: string) | Many(uuids: seq<string>)

  /** The `service_uuid` setter. A single string is stored as a one-element
      list whatever its length; a sequence of at most two is stored as it
      is; a longer one raises `ValueError` and the getter still returns
      what it returned before. No other field is touched. */
  function SetServiceUuid(ad: Advertisement, value: UuidValue): (r: Result<Advertisement, AdError>)
    ensures r.Failure? <==> value.Many? && |value.uuids| > MaxServiceUuids
    ensures r.Failure? ==> r.error == ValueError(TooManyUuids)
    ensures r.Success? && value.Single? ==> ServiceUuid(r.value) == [value.uuid]
    ensures r.Success? && value.Many? ==> ServiceUuid(r.value) == value.uuids
    ensures r.Success? ==> r.value.(serviceUuid := ad.serviceUuid) == ad
  {
    match value
    case Single(u) => Success(ad.(serviceUuid := Some([u])))
    case Many(us) =>
      if |us| <= MaxServiceUuids then Success(ad.(serviceUuid := Some(us)))
      else Failure(ValueError(TooManyUuids))
  }

  /** The bound the setter enforces. */
  predicate Valid(ad: Advertisement) {
    |ServiceUuid(ad)| <= MaxServiceUuids
  }

  /** Every advertisement the setter produces advertises at most two
      service UUIDs, whatever it is given. */
  lemma SetServiceUuidKeepsBound(ad: Advertisement, value: UuidValue)
    requires SetServiceUuid(ad, value).Success?
    ensures Valid(SetServiceUuid(ad, value).value)
  {
  }

  /** The D-Bus values a property can hold: a string, a string array
      (signature `as`), or a dictionary of byte arrays keyed by integers
      (`a{qv}`, `a{yv}`) or by strings (`a{sv}`). */
  datatype Value =
    | Str(s: string)
    | StrArray(items: seq<string>)
    | IntDict(signature: string, ints: map<int, seq<Byte>>)
    | StrDict(strs: map<string, seq<Byte>>)

  /** Python truthiness of the optional fields: set and non-empty. */
  predicate SeqSet<T>(o: Option<seq<T>>) {
    o.Some? && |o.value| > 0
  }

  predicate MapSet<K, V>(o: Option<map<K, V>>) {
    o.Some? && |o.value| > 0
  }

  /** The property names BlueZ reads from an advertisement. */
  datatype Key = KeyType | KeyServiceUuids | KeySolicitUuids | KeyManufacturerData
               | KeyServiceData | KeyLocalName | KeyIncludes | KeyData
  {
    /** The name on the bus. */
    function Name(): string {
      match this
      case KeyType => "Type"
      case KeyServiceUuids => "ServiceUUIDs"
      case KeySolicitUuids => "SolicitUUIDs"
      case KeyManufacturerData => "ManufacturerData"
      case KeyServiceData => "ServiceData"
      case KeyLocalName => "LocalName"
      case KeyIncludes => "Includes"
      case KeyData => "Data"
    }
  }

  const AllKeys: set<Key> := {KeyType, KeyServiceUuids, KeySolicitUuids, KeyManufacturerData,
                               KeyServiceData, KeyLocalName, KeyIncludes, KeyData}

  /** Whether `get_properties` emits the property: `Type` always, the
      transmit-power flag when true, every other field when it is set and
      non-empty. */
  predicate Included(ad: Advertisement, k: Key) {
    match k
    case KeyType => true
    case KeyServiceUuids => |ServiceUuid(ad)| > 0
    case KeySolicitUuids => SeqSet(ad.solicitUuids)
    case KeyManufacturerData => MapSet(ad.manufacturerData)
    case KeyServiceData => MapSet(ad.serviceData)
    case KeyLocalName => SeqSet(ad.localName)
    case KeyIncludes => ad.includeTxPower
    case KeyData => MapSet(ad.data)
  }

  /** The value `get_properties` emits for an included property. */
  function Entry(ad: Advertisement, k: Key): Value
    requires Included(ad, k)
  {
    match k
    case KeyType => Str(ad.adType)
    case KeyServiceUuids => StrArray(ServiceUuid(ad))
    case KeySolicitUuids => StrArray(ad.solicitUuids.value)
    case KeyManufacturerData => IntDict("qv", ad.manufacturerData.value)
    case KeyServiceData => StrDict(ad.serviceData.value)
    case KeyLocalName => Str(ad.localName.value)
    case KeyIncludes => StrArray(["tx-power"])
    case KeyData => IntDict("yv", ad.data.value)
  }

  /** The properties of the advertisement interface: the type always, and
      each optional entry exactly when its field is set and non-empty. */
  function Properties(ad: Advertisement): (p: map<Key, Value>)
    ensures KeyType in p && p[KeyType] == Str(ad.adType)
    ensures KeyServiceUuids in p <==> |ServiceUuid(ad)| > 0
    ensures KeyServiceUuids in p ==> p[KeyServiceUuids] == StrArray(ServiceUuid(ad))
    ensures KeySolicitUuids in p <==> SeqSet(ad.solicitUuids)
    ensures KeySolicitUuids in p ==> p[KeySolicitUuids] == StrArray(ad.solicitUuids.value)
    ensures KeyManufacturerData in p <==> MapSet(ad.manufacturerData)
    ensures KeyManufacturerData in p ==> p[KeyManufacturerData] == IntDict("qv", ad.manufacturerData.value)
    ensures KeyServiceData in p <==> MapSet(ad.serviceData)
    ensures KeyServiceData in p ==> p[KeyServiceData] == StrDict(ad.serviceData.value)
    ensures KeyLocalName in p <==> SeqSet(ad.localName)
    ensures KeyLocalName in p ==> p[KeyLocalName] == Str(ad.localName.value)
    ensures KeyIncludes in p <==> ad.includeTxPower
    ensures KeyIncludes in p ==> p[KeyIncludes] == StrArray(["tx-power"])
    ensures KeyData in p <==> MapSet(ad.data)
    ensures KeyData in p ==> p[KeyData] == IntDict("yv", ad.data.value)
  {
    map k | k in AllKeys && Included(ad, k) :: Entry(ad, k)
  }

  /** `get_properties`: the properties under the interface name alone. */
  function GetProperties(ad: Advertisement): (r: map<string, map<Key, Value>>)
    ensures r.Keys == {LeAdvertisementIface}
    ensures r[LeAdvertisementIface] == Properties(ad)
  {
    map[LeAdvertisementIface := Properties(ad)]
  }

  /** `GetAll`: the advertisement interface's properties; any other
      interface name raises `InvalidArgsException`. */
  function GetAll(ad: Advertisement, iface: string): (r: Result<map<Key, Value>, AdError>)
    ensures r.Failure? <==> iface != LeAdvertisementIface
    ensures r.Failure? ==> r.error == InvalidArgs
    ensures r.Success? ==> r.value == GetProperties(ad)[iface]
  {
    if iface != LeAdvertisementIface then Failure(InvalidArgs)
    else Success(GetProperties(ad)[LeAdvertisementIface])
  }

  /** The solicited UUIDs, an unset list read as empty. */
  function SolicitUuids(ad: Advertisement): seq<string> {
    ad.solicitUuids.GetOr([])
  }

  /** `add_solicit_uuid`: appends one UUID to the list. */
  function AddSolicitUuid(ad: Advertisement, uuid: string): (r: Advertisement)
    ensures SolicitUuids(r) == SolicitUuids(ad) + [uuid]
    ensures r.(solicitUuids := ad.solicitUuids) == ad
  {
    ad.(solicitUuids := Some(SolicitUuids(ad) + [uuid]))
  }

  /** Adding UUIDs one at a time, in order. */
  function AddSolicitUuids(ad: Advertisement, uuids: seq<string>): Advertisement
    decreases |uuids|
  {
    if |uuids| == 0 then ad else AddSolicitUuids(AddSolicitUuid(ad, uuids[0]), uuids[1..])
  }

  /** Repeated `add_solicit_uuid` keeps every UUID in the order added. */
  lemma {:induction false} AddSolicitUuidsInOrder(ad: Advertisement, uuids: seq<string>)
    ensures SolicitUuids(AddSolicitUuids(ad, uuids)) == SolicitUuids(ad) + uuids
    ensures AddSolicitUuids(ad, uuids).(solicitUuids := ad.solicitUuids) == ad
    decreases |uuids|
  {
    if |uuids| > 0 {
      AddSolicitUuidsInOrder(AddSolicitUuid(ad, uuids[0]), uuids[1..]);
      assert SolicitUuids(ad) + [uuids[0]] + uuids[1..] == SolicitUuids(ad) + uuids;
    }
  }

  /** A dictionary field with the given key set to `value`, starting from an
      empty dictionary when the field is unset or empty. */
  function Put<K, V>(m: Option<map<K, V>>, key: K, value: V): (r: map<K, V>)
    ensures key in r && r[key] == value
    ensures r.Keys == (if MapSet(m) then m.value.Keys else {}) + {key}
    ensures MapSet(m) ==> forall k :: k in m.value && k != key ==> r[k] == m.value[k]
  {
    if MapSet(m) then m.value[key := value] else map[key := value]
  }

  /** `add_manufacturer_data`: sets the data for one manufacturer code. */
  function AddManufacturerData(ad: Advertisement, code: int, data: seq<Byte>): (r: Advertisement)
    ensures r.manufacturerData.Some?
    ensures code in r.manufacturerData.value && r.manufacturerData.value[code] == data
    ensures r.manufacturerData.value.Keys
            == (if MapSet(ad.manufacturerData) then ad.manufacturerData.value.Keys else {}) + {code}
    ensures MapSet(ad.manufacturerData) ==>
      forall k :: k in ad.manufacturerData.value && k != code ==>
        k in r.manufacturerData.value && r.manufacturerData.value[k] == ad.manufacturerData.value[k]
    ensures r.(manufacturerData := ad.manufacturerData) == ad
  {
    ad.(manufacturerData := Some(Put(ad.manufacturerData, code, data)))
  }

  /** `add_service_data`: sets the data for one service UUID. */
  function AddServiceData(ad: Advertisement, uuid: string, data: seq<Byte>): (r: Advertisement)
    ensures r.serviceData.Some?
    ensures uuid in r.serviceData.value && r.serviceData.value[uuid] == data
    ensures r.serviceData.value.Keys == (if MapSet(ad.serviceData) then ad.serviceData.value.Keys else {}) + {uuid}
    ensures MapSet(ad.serviceData) ==>
      forall k :: k in ad.serviceData.value && k != uuid ==>
        k in r.serviceData.value && r.serviceData.value[k] == ad.serviceData.value[k]
    ensures r.(serviceData := ad.serviceData) == ad
  {
    ad.(serviceData := Some(Put(ad.serviceData, uuid, data)))
  }

  /** `add_data`: sets the payload for one advertising data type. */
  function AddData(ad: Advertisement, adType: int, data: seq<Byte>): (r: Advertisement)
    ensures r.data.Some?
    ensures adType in r.data.value && r.data.value[adType] == data
    ensures r.data.value.Keys == (if MapSet(ad.data) then ad.data.value.Keys else {}) + {adType}
    ensures MapSet(ad.data) ==>
      forall k :: k in ad.data.value && k != adType ==> k in r.data.value && r.data.value[k] == ad.data.value[k]
    ensures r.(data := ad.data) == ad
  {
    ad.(data := Some(Put(ad.data, adType, data)))
  }

  /** Whatever was added through a helper is advertised: the property it
      feeds is present and holds the added entry. */
  lemma AddedEntriesAdvertised(ad: Advertisement, uuid: string, code: int, data: seq<Byte>)
    ensures var p := Properties(AddSolicitUuid(ad, uuid));
      KeySolicitUuids in p && p[KeySolicitUuids].items[|p[KeySolicitUuids].items| - 1] == uuid
    ensures var p := Properties(AddManufacturerData(ad, code, data));
      KeyManufacturerData in p && p[KeyManufacturerData].ints[code] == data
    ensures var p := Properties(AddServiceData(ad, uuid, data));
      KeyServiceData in p && p[KeyServiceData].strs[uuid] == data
    ensures var p := Properties(AddData(ad, code, data));
      KeyData in p && p[KeyData].ints[code] == data
  {
  }

  /* ---------------------------------------------------------------------
     The concrete advertisement the peripheral registers
     --------------------------------------------------------------------- */

  /** `SERVICES_TO_ADVERTISE`. */
  const ServicesToAdvertise: seq<string> := ["cafe"]

  const Peripheral: string := "peripheral"

  /** `TestAdvertisement(local_name, bus, index)`: fails only where the
      base constructor does, on a negative index. */
  function TestAdvertisement(localName: string, index: int): (r: Result<Advertisement, AdError>)
    ensures r.Failure? <==> index < 0
    ensures r.Success? ==> Valid(r.value) && ServiceUuid(r.value) == ServicesToAdvertise
    ensures r.Success? ==> r.value.objectPath == PathBase + Decimal.IntToString(index)
    ensures r.Success? ==> r.value.localName == Some(localName)
  {
    match NewAdvertisement(index, Peripheral)
    case Failure(e) => Failure(e)
    case Success(ad) =>
      var withUuids := SetServiceUuid(ad, Many(ServicesToAdvertise));
      assert withUuids.Success?;
      var withMfr := AddManufacturerData(withUuids.value, 0xffff, [0x00, 0x01, 0x02, 0x03]);
      var withSvc := AddServiceData(withMfr, "9999", [0x00, 0x01, 0x02, 0x03, 0x04]);
      var named := withSvc.(localName := Some(localName));
      var withTx := named.(includeTxPower := true);
      Success(AddData(withTx, 0x26, [0x01, 0x01, 0x00]))
  }

  /** The registered advertisement publishes every property; the local name
      only when it is non-empty. */
  lemma TestAdvertisementProperties(localName: string, index: nat)
    ensures TestAdvertisement(localName, index).Success?
    ensures var p := Properties(TestAdvertisement(localName, index).value);
      && p[KeyType] == Str(Peripheral)
      && p[KeyServiceUuids] == StrArray(["cafe"])
      && KeySolicitUuids !in p
      && p[KeyManufacturerData] == IntDict("qv", map[0xffff := [0x00, 0x01, 0x02, 0x03]])
      && p[KeyServiceData] == StrDict(map["9999" := [0x00, 0x01, 0x02, 0x03, 0x04]])
      && (KeyLocalName in p <==> localName != "")
      && (KeyLocalName in p ==> p[KeyLocalName] == Str(localName))
      && p[KeyIncludes] == StrArray(["tx-power"])
      && p[KeyData] == IntDict("yv", map[0x26 := [0x01, 0x01, 0x00]])
  {
  }
}

=== FILE: decimal.dfy ===
/** Decimal rendering of integers, as produced by string interpolation of an
    `int` in Python (`f"{n}"`) and in C# (`$"{n}"`) under a culture whose
    negative sign is "-": an optional minus sign followed by the digits,
    without leading zeros. The parser is the partner
    that shows the rendering loses no information. */
module Decimal {
  import opened Wrappers

  predicate IsDigit(c: char) {
    '0' <= c <= '9'
  }

  function DigitChar(d: int): (c: char)
    requires 0 <= d < 10
    ensures IsDigit(c)
  {
    ['0', '1', '2', '3', '4', '5', '6', '7', '8', '9'][d]
  }

  function DigitValue(c: char): (d: int)
    requires IsDigit(c)
    ensures 0 <= d < 10
  {
    c as int - '0' as int
  }

  lemma DigitRoundTrip(d: int)
    requires 0 <= d < 10
    ensures DigitValue(DigitChar(d)) == d
  {
  }

  predicate AllDigits(s: string) {
    forall i :: 0 <= i < |s| ==> IsDigit(s[i])
  }

  /** Decimal digits of a natural number, most significant first. */
  function NatToString(n: nat): (s: string)
    ensures |s| >= 1 && AllDigits(s)
    ensures |s| > 1 ==> s[0] != '0'
    ensures n > 0 ==> s[0] != '0'
    decreases n
  {
    if n < 10 then [DigitChar(n)]
    else NatToString(n / 10) + [DigitChar(n % 10)]
  }

  /** Decimal text of an integer: `-` then the digits of its magnitude. */
  function IntToString(n: int): (s: string)
    ensures |s| >= 1
    ensures n < 0 <==> s[0] == '-'
    ensures n >= 0 ==> AllDigits(s)
    ensures n < 0 ==> |s| >= 2 && AllDigits(s[1..])
    ensures n > 0 ==> s[0] != '0'
    ensures n < 0 ==> s[1] != '0'
  {
    if n < 0 then "-" + NatToString(-n) else NatToString(n)
  }

  /** The value of a non-empty run of digits. */
  function ParseNat(s: string): nat
    requires |s| >= 1 && AllDigits(s)
    decreases |s|
  {
    if |s| == 1 then DigitValue(s[0])
    else ParseNat(s[..|s| - 1]) * 10 + DigitValue(s[|s| - 1])
  }

  /** Reads back what `IntToString` writes; `None` for anything else. */
  function ParseInt(s: string): Option<int> {
    if |s| >= 2 && s[0] == '-' && AllDigits(s[1..]) then Some(0 - ParseNat(s[1..]) as int)
    else if |s| >= 1 && AllDigits(s) then Some(ParseNat(s))
    else None
  }

  lemma {:induction false} NatRoundTrip(n: nat)
    ensures ParseNat(NatToString(n)) == n
    decreases n
  {
    if n >= 10 {
      var s := NatToString(n);
      NatRoundTrip(n / 10);
      assert s[..|s| - 1] == NatToString(n / 10);
      assert s[|s| - 1] == DigitChar(n % 10);
      DigitRoundTrip(n % 10);
    } else {
      DigitRoundTrip(n);
    }
  }

  /** Rendering then parsing gives back the integer. */
  lemma IntRoundTrip(n: int)
    ensures ParseInt(IntToString(n)) == Some(n)
  {
    var s := IntToString(n);
    if n < 0 {
      assert s[1..] == NatToString(-n);
      NatRoundTrip(-n);
    } else {
      NatRoundTrip(n);
    }
  }

  /** Distinct integers have distinct decimal texts. */
  lemma IntToStringInjective(a: int, b: int)
    ensures IntToString(a) == IntToString(b) <==> a == b
  {
    if IntToString(a) == IntToString(b) {
      IntRoundTrip(a);
      IntRoundTrip(b);
    }
  }
}

=== FILE: device_receiver.dfy ===
/** `BluetoothDeviceReceiver.OnReceive` as a pure map from a broadcast to
    what it asks of the device list. The activity methods it calls are
    represented by the `Effect` they request, not by their implementation. */
module DeviceReceiver {
  import opened Wrappers
  import opened ListItems

  /** Bond states as the platform's integer extras carry them. */
  const BondNone: int := 10
  const BondBonding: int := 11
  const BondBonded: int := 12

  /** The broadcast actions the receiver switches on; `Other` is any
      action string it does not name. */
  datatype Action =
    | ActionUuid
    | ActionFound
    | ActionDiscoveryStarted
    | ActionDiscoveryFinished
    | ActionBondStateChanged(previous: int, current: int)
    | Other(name: string)

  /** The remote device attached to the broadcast. */
  datatype Device = Device(address: Option<string>, name: Option<string>, bondState: int)

  /** What a broadcast asks of the list: add or refresh a device row, set
      the status header's text, or nothing. */
  datatype Effect = Upsert(item: ListItem) | SetStatus(text: string) | NoChange

  const DiscoveryStartedText: string := "Discovery Started..."
  const DiscoveryFinishedText: string := "Discovery Finished."

  /** `BondDescription`: the three known states by name, anything else,
      the -1 default of a missing extra included, as "ERROR". */
  function BondDescription(value: int): (s: string)
    ensures value == BondBonded <==> s == "BONDED"
    ensures value == BondBonding <==> s == "BONDING"
    ensures value == BondNone <==> s == "NONE"
    ensures s == "ERROR" <==> value !in {BondNone, BondBonding, BondBonded}
  {
    if value == BondBonded then "BONDED"
    else if value == BondBonding then "BONDING"
    else if value == BondNone then "NONE"
    else "ERROR"
  }

  /** `OnReceive`: a found device that is not bonded becomes a data item
      with its address and name and null services (the constructor's
      exception propagates); discovery start and finish set the status
      text; everything else only logs. */
  function OnReceive(action: Action, device: Device): (r: Result<Effect, Error>)
    ensures r.Success? && r.value.Upsert? ==>
      && action == ActionFound
      && device.bondState != BondBonded
      && r.value.item.DataItem?
      && device.address == Some(r.value.item.address)
      && r.value.item.name == device.name
      && r.value.item.services.None?
      && r.value.item.subText == ""
      && r.value.item.rssi == 0
      && WellFormed(r.value.item)
    ensures action == ActionFound && device.bondState != BondBonded && !IsNullOrEmpty(device.address) ==>
      r.Success? && r.value.Upsert?
    ensures r.Failure? <==> action == ActionFound && device.bondState != BondBonded && IsNullOrEmpty(device.address)
    ensures action == ActionFound && device.bondState == BondBonded ==> r == Success(NoChange)
    ensures action == ActionDiscoveryStarted ==> r == Success(SetStatus(DiscoveryStartedText))
    ensures action == ActionDiscoveryFinished ==> r == Success(SetStatus(DiscoveryFinishedText))
    ensures action.ActionUuid? || action.ActionBondStateChanged? || action.Other? ==> r == Success(NoChange)
  {
    match action
    case ActionFound =>
      if device.bondState != BondBonded then
        match NewDataItem(device.address, device.name, None)
        case Failure(e) => Failure(e)
        case Success(item) => Success(Upsert(item))
      else Success(NoChange)
    case ActionDiscoveryStarted => Success(SetStatus(DiscoveryStartedText))
    case ActionDiscoveryFinished => Success(SetStatus(DiscoveryFinishedText))
    case ActionUuid => Success(NoChange)
    case ActionBondStateChanged(_, _) => Success(NoChange)
    case Other(_) => Success(NoChange)
  }

  /** Bonded devices enter the list only when it is built: no broadcast
      about a bonded device ever adds or refreshes its row. */
  lemma BondedDevicesNeverUpserted(action: Action, device: Device)
    requires device.bondState == BondBonded
    ensures OnReceive(action, device).Success?
    ensures !OnReceive(action, device).value.Upsert?
  {
  }
}

=== FILE: list_items.dfy ===
/** The three kinds of row the device list holds (`IListItem` and its
    implementations `HeaderListItem`, `StatusHeaderListItem` and
    `BluetoothListDataItem`) as one sum type, with the data item's
    constructor checks and property setters as pure functions. */
module ListItems {
  import opened Wrappers
  import StringJoin

  /** The tag the list adapter switches on (`ListItemType`). */
  datatype ItemType = HeaderType | StatusType | DataItemType

  /** One row of the device list. `text` is shared by all three kinds; a
      data item also carries the device identity and its derived
      `subText`. `name` and `services` may be null; an `rssi` of 0 means no
      reading was taken. */
  datatype ListItem =
    | Header(text: string)
    | Status(text: string)
    | DataItem(address: string, name: Option<string>, services: Option<seq<string>>,
               rssi: int, text: string, subText: string)

  /** The exception the data-item constructor throws. */
  datatype Error = ArgumentNull(paramName: string)

  const AddressRequired: string := "Address cannot be null or empty"

  /** `ItemType` of each implementation: a constant per kind. */
  function TypeOf(item: ListItem): (t: ItemType)
    ensures t == HeaderType <==> item.Header?
    ensures t == StatusType <==> item.Status?
    ensures t == DataItemType <==> item.DataItem?
  {
    match item
    case Header(_) => HeaderType
    case Status(_) => StatusType
    case DataItem(_, _, _, _, _, _) => DataItemType
  }

  /** `string.IsNullOrEmpty`. */
  predicate IsNullOrEmpty(s: Option<string>) {
    s.None? || s.value == ""
  }

  /** The title of a data item: the address, followed by the name in
      parentheses when there is a name. */
  function DisplayText(address: string, name: Option<string>): (t: string)
    ensures |t| >= |address| && t[..|address|] == address
    ensures t == address <==> IsNullOrEmpty(name)
    ensures !IsNullOrEmpty(name) ==> t == address + " (" + name.value + ")"
  {
    address + (if IsNullOrEmpty(name) then "" else " (" + name.value + ")")
  }

  /** Reads the name back out of a title built by `DisplayText`. */
  function NameOfText(address: string, t: string): string {
    if |t| >= |address| + 3 then t[|address| + 2 .. |t| - 1] else ""
  }

  /** The title determines the name: nothing is lost except the difference
      between a null and an empty name. */
  lemma DisplayTextRoundTrip(address: string, name: Option<string>)
    ensures NameOfText(address, DisplayText(address, name)) == name.GetOr("")
  {
    if !IsNullOrEmpty(name) {
      var t := DisplayText(address, name);
      assert t[|address| + 2 .. |t| - 1] == name.value;
    }
  }

  /** The subtitle of a data item: the services joined with ", ", or empty
      when there are none or the collection is null. */
  function ServicesText(services: Option<seq<string>>): (t: string)
    ensures services.None? ==> t == ""
    ensures services.Some? ==> t == StringJoin.Join(services.value)
  {
    if services.None? || |services.value| == 0 then "" else StringJoin.Join(services.value)
  }

  /** A non-empty list of comma-free service identifiers (UUID strings) can
      be read back from the subtitle. */
  lemma ServicesTextRoundTrip(services: seq<string>)
    requires |services| >= 1
    requires forall k :: 0 <= k < |services| ==> StringJoin.NoComma(services[k])
    ensures StringJoin.Split(ServicesText(Some(services))) == services
  {
    StringJoin.SplitJoin(services);
  }

  /** The invariant every data item is built with: a non-empty address and
      the two display strings derived from the current name and services. */
  predicate WellFormed(item: ListItem) {
    item.DataItem? ==>
      && item.address != ""
      && item.text == DisplayText(item.address, item.name)
      && item.subText == ServicesText(item.services)
  }

  /** The three-argument constructor: rejects a null or empty address,
      otherwise stores the arguments, derives both display strings and
      leaves the RSSI at its default of 0. */
  function NewDataItem(address: Option<string>, name: Option<string>, services: Option<seq<string>>)
    : (r: Result<ListItem, Error>)
    ensures r.Failure? <==> IsNullOrEmpty(address)
    ensures r.Failure? ==> r.error == ArgumentNull(AddressRequired)
    ensures r.Success? ==>
      && r.value.DataItem?
      && r.value.address == address.value
      && r.value.name == name
      && r.value.services == services
      && r.value.rssi == 0
      && WellFormed(r.value)
  {
    if IsNullOrEmpty(address) then Failure(ArgumentNull(AddressRequired))
    else
      var a := address.value;
      Success(DataItem(a, name, services, 0, DisplayText(a, name), ServicesText(services)))
  }

  /** The one-argument constructor: empty name and null services. */
  function NewDataItemFromAddress(address: Option<string>): (r: Result<ListItem, Error>)
    ensures r.Failure? <==> IsNullOrEmpty(address)
    ensures r.Success? ==> r.value == DataItem(address.value, Some(""), None, 0, address.value, "")
  {
    NewDataItem(address, Some(""), None)
  }

  /** The two-argument constructor: null services. */
  function NewDataItemWithName(address: Option<string>, name: Option<string>): (r: Result<ListItem, Error>)
    ensures r.Failure? <==> IsNullOrEmpty(address)
    ensures r.Success? ==>
      && r.value.DataItem?
      && r.value.address == address.value
      && r.value.name == name
      && r.value.services.None?
      && r.value.subText == ""
      && r.value.rssi == 0
      && WellFormed(r.value)
  {
    NewDataItem(address, name, None)
  }

  /** The `Name` setter: changes the name and re-derives the title; every
      other field, the address included, is left as it was. */
  function SetName(item: ListItem, name: Option<string>): (r: ListItem)
    requires item.DataItem?
    ensures r.DataItem? && r.name == name
    ensures r.text == DisplayText(item.address, name)
    ensures r.address == item.address && r.services == item.services
    ensures r.rssi == item.rssi && r.subText == item.subText
    ensures WellFormed(item) ==> WellFormed(r)
  {
    item.(name := name, text := DisplayText(item.address, name))
  }

  /** The `Services` setter: changes the services and re-derives the
      subtitle; every other field is left as it was. */
  function SetServices(item: ListItem, services: Option<seq<string>>): (r: ListItem)
    requires item.DataItem?
    ensures r.DataItem? && r.services == services
    ensures r.subText == ServicesText(services)
    ensures r.address == item.address && r.name == item.name
    ensures r.rssi == item.rssi && r.text == item.text
    ensures WellFormed(item) ==> WellFormed(r)
  {
    item.(services := services, subText := ServicesText(services))
  }

  /** The `Rssi` setter. */
  function SetRssi(item: ListItem, rssi: int): (r: ListItem)
    requires item.DataItem?
    ensures r.DataItem? && r.rssi == rssi
    ensures r.(rssi := item.rssi) == item
    ensures WellFormed(item) ==> WellFormed(r)
  {
    item.(rssi := rssi)
  }

  /** `HeaderListItem(text)`: any text is accepted and stored verbatim. */
  function NewHeader(text: string): (r: ListItem)
    ensures TypeOf(r) == HeaderType && r.text == text
  {
    Header(text)
  }

  /** `StatusHeaderListItem(text)`: any text is accepted and stored verbatim. */
  function NewStatus(text: string): (r: ListItem)
    ensures TypeOf(r) == StatusType && r.text == text
  {
    Status(text)
  }

  /** The public `Text` setter every kind has: the kind is kept, the text
      replaced, and a header or status item is otherwise unchanged. */
  function SetText(item: ListItem, text: string): (r: ListItem)
    ensures TypeOf(r) == TypeOf(item) && r.text == text
    ensures !item.DataItem? ==> r == (if item.Header? then NewHeader(text) else NewStatus(text))
    ensures item.DataItem? ==> r.(text := item.text) == item
  {
    item.(text := text)
  }
}

=== FILE: list_view_adapter.dfy ===
/** `BluetoothListViewAdapter`: the row count, row ids, and which strings
    `GetView` puts on screen for each kind of item. Layout inflation is
    replaced by a `Row` value naming the layout and the texts it shows. */
module ListViewAdapter {
  import opened Wrappers
  import opened ListItems
  import Decimal

  /** A rendered row: the layout chosen and the text of each of its views.
      Header and status rows are explicitly made non-clickable. */
  datatype Row =
    | HeaderRow(header: string)
    | StatusRow(status: string)
    | ContentRow(title: string, subTitle: string, rssi: string)

  predicate MarkedNonClickable(row: Row) {
    row.HeaderRow? || row.StatusRow?
  }

  /** `Count`: one row per item. */
  function Count(items: seq<ListItem>): (n: nat)
    ensures n == |items|
  {
    |items|
  }

  /** `GetItemId`: a row's id is its position. */
  function GetItemId(position: int): (id: int)
    ensures id == position
  {
    position
  }

  const RssiPrefix: string := "RSSI: "
  const NotAdvertising: string := "(not advertising)"

  /** The RSSI line of a device row. A reading of 0 is the unset default
      and is shown as not advertising; any other reading in decimal. */
  function RssiLabel(rssi: int): (s: string)
    ensures |s| > |RssiPrefix| && s[..|RssiPrefix|] == RssiPrefix
    ensures s == RssiPrefix + NotAdvertising <==> rssi == 0
    ensures rssi != 0 ==> Decimal.ParseInt(s[|RssiPrefix|..]) == Some(rssi)
    ensures rssi != 0 ==> s == RssiPrefix + Decimal.IntToString(rssi)
  {
    if rssi != 0 then
      Decimal.IntRoundTrip(rssi);
      assert (RssiPrefix + Decimal.IntToString(rssi))[|RssiPrefix|..] == Decimal.IntToString(rssi);
      RssiPrefix + Decimal.IntToString(rssi)
    else RssiPrefix + NotAdvertising
  }

  /** Distinct readings are shown as distinct labels. */
  lemma RssiLabelInjective(a: int, b: int)
    ensures RssiLabel(a) == RssiLabel(b) <==> a == b
  {
    if RssiLabel(a) == RssiLabel(b) && a != 0 && b != 0 {
      assert RssiLabel(a)[|RssiPrefix|..] == RssiLabel(b)[|RssiPrefix|..];
    }
  }

  /** The row drawn for an item: its kind picks the layout, header and
      status rows show exactly the item's text, device rows show the title,
      the subtitle and the RSSI label. */
  function Render(item: ListItem): (row: Row)
    ensures row.HeaderRow? <==> TypeOf(item) == HeaderType
    ensures row.StatusRow? <==> TypeOf(item) == StatusType
    ensures row.ContentRow? <==> TypeOf(item) == DataItemType
    ensures MarkedNonClickable(row) <==> !item.DataItem?
    ensures row.HeaderRow? ==> row.header == item.text
    ensures row.StatusRow? ==> row.status == item.text
    ensures row.ContentRow? ==>
      row.title == item.text && row.subTitle == item.subText && row.rssi == RssiLabel(item.rssi)
  {
    match item
    case Header(t) => HeaderRow(t)
    case Status(t) => StatusRow(t)
    case DataItem(_, _, _, rssi, t, sub) => ContentRow(t, sub, RssiLabel(rssi))
  }

  /** `GetView`: the row for the item at `position`. An out-of-range
      position throws inside the `try`, the exception is swallowed, and the
      recycled `convertView` is handed back as it came. */
  function GetView(items: seq<ListItem>, position: int, convertView: Option<Row>): (r: Option<Row>)
    ensures 0 <= position < Count(items) ==> r.Some? && r.value == Render(items[position])
    ensures !(0 <= position < Count(items)) ==> r == convertView
  {
    if 0 <= position < |items| then Some(Render(items[position])) else convertView
  }

  /** A device row identifies its device: the title starts with the
      address and the name can be read back from it, and the RSSI line
      determines the reading. */
  lemma RenderedRowIdentifiesDevice(item: ListItem)
    requires item.DataItem? && WellFormed(item)
    ensures Render(item).title[..|item.address|] == item.address
    ensures NameOfText(item.address, Render(item).title) == item.name.GetOr("")
    ensures forall other: int :: RssiLabel(other) == Render(item).rssi ==> other == item.rssi
  {
    DisplayTextRoundTrip(item.address, item.name);
    forall other: int | RssiLabel(other) == Render(item).rssi
      ensures other == item.rssi
    {
      RssiLabelInjective(other, item.rssi);
    }
  }

  /** The row count and the row ids agree with `GetView`: every id below
      the count renders its own item, and the first id past the end falls
      into the exception handler. */
  lemma EveryRowRenders(items: seq<ListItem>)
    ensures forall p :: 0 <= p < Count(items) ==> GetView(items, GetItemId(p), None) == Some(Render(items[p]))
    ensures GetView(items, GetItemId(Count(items)), None) == None
  {
  }
}

=== FILE: main_activity.dfy ===
/** The sequential logic of `MainActivity` and its `AdScanCallback`:
    building the initial device list, reconciling one incoming data item
    into it, the BLE scan-result filter, and the guard that keeps platform
    scan start and stop calls paired. The list is passed in and returned
    instead of being reached through the adapter of the single activity. */
module MainActivity {
  import opened Wrappers
  import opened ListItems

  /* ---------------------------------------------------------------------
     Reconciling one data item into the list (`UpdateList`)
     --------------------------------------------------------------------- */

  /** The predicate `UpdateList` searches with: a data item whose address
      equals `address` exactly. Header and status items never match. */
  predicate HasAddress(x: ListItem, address: string) {
    x.DataItem? && x.address == address
  }

  predicate NoneHasAddress(items: seq<ListItem>, address: string) {
    forall k :: 0 <= k < |items| ==> !HasAddress(items[k], address)
  }

  /** `List.FindIndex`: the first position holding a data item with this
      address, or -1 when there is none. */
  function FindIndex(items: seq<ListItem>, address: string): (r: int)
    ensures -1 <= r < |items|
    ensures r == -1 <==> NoneHasAddress(items, address)
    ensures r >= 0 ==> HasAddress(items[r], address)
    ensures forall k :: 0 <= k < r ==> !HasAddress(items[k], address)
    decreases |items|
  {
    if |items| == 0 then -1
    else if HasAddress(items[0], address) then 0
    else
      var k := FindIndex(items[1..], address);
      if k == -1 then -1 else k + 1
  }

  /** `UpdateList`: a data item whose address is already listed replaces the
      first such entry in place; otherwise it is appended after everything,
      the section headers included. */
  function UpdateList(items: seq<ListItem>, item: ListItem): (r: seq<ListItem>)
    requires item.DataItem?
    ensures |r| == |items| + 1 <==> NoneHasAddress(items, item.address)
    ensures |r| == |items| || |r| == |items| + 1
    ensures item in r
    ensures forall k :: 0 <= k < |items| && !HasAddress(items[k], item.address) ==> r[k] == items[k]
    ensures forall k :: 0 <= k < |r| ==> r[k] == item || (k < |items| && r[k] == items[k])
  {
    var i := FindIndex(items, item.address);
    if i == -1 then items + [item]
    else
      var r := items[i := item];
      assert r[i] == item;
      r
  }

  /** A new address is appended: the list grows by one, the old entries
      keep their positions and the item is last. */
  lemma UpdateListAppends(items: seq<ListItem>, item: ListItem)
    requires item.DataItem? && NoneHasAddress(items, item.address)
    ensures UpdateList(items, item) == items + [item]
  {
  }

  /** A listed address is updated in place: the first entry with that
      address is replaced wholesale (name, services and RSSI) and nothing
      else moves or changes. */
  lemma UpdateListReplaces(items: seq<ListItem>, item: ListItem, i: nat)
    requires item.DataItem? && i < |items|
    requires HasAddress(items[i], item.address)
    requires forall k :: 0 <= k < i ==> !HasAddress(items[k], item.address)
    ensures UpdateList(items, item) == items[i := item]
  {
  }

  /** No two data items share an address. */
  predicate DistinctAddresses(items: seq<ListItem>) {
    forall i, j :: 0 <= i < j < |items| && items[i].DataItem? && items[j].DataItem? ==>
      items[i].address != items[j].address
  }

  /** Reconciling keeps data-item addresses pairwise distinct. */
  lemma UpdateListKeepsDistinct(items: seq<ListItem>, item: ListItem)
    requires item.DataItem? && DistinctAddresses(items)
    ensures DistinctAddresses(UpdateList(items, item))
  {
    var r := UpdateList(items, item);
    var f := FindIndex(items, item.address);
    forall i, j | 0 <= i < j < |r| && r[i].DataItem? && r[j].DataItem?
      ensures r[i].address != r[j].address
    {
      if f == -1 {
        if j == |items| {
          assert !HasAddress(items[i], item.address);
        }
      } else {
        if i == f {
          assert HasAddress(items[f], item.address);
        } else if j == f {
          assert HasAddress(items[f], item.address);
        }
      }
    }
  }

  /** Reconciling the same item twice gives the same list as once. This
      holds for every list, distinct addresses or not: after the first
      call the item sits at the first position its address matches. */
  lemma UpdateListIdempotent(items: seq<ListItem>, item: ListItem)
    requires item.DataItem?
    ensures UpdateList(UpdateList(items, item), item) == UpdateList(items, item)
  {
    var once := UpdateList(items, item);
    var f := FindIndex(items, item.address);
    if f == -1 {
      assert once[..|items|] == items;
      UpdateListReplaces(once, item, |items|);
    } else {
      UpdateListReplaces(once, item, f);
    }
  }

  /** A stream of data items, reconciled one after another. */
  function UpdateAll(items: seq<ListItem>, incoming: seq<ListItem>): seq<ListItem>
    requires forall k :: 0 <= k < |incoming| ==> incoming[k].DataItem?
    decreases |incoming|
  {
    if |incoming| == 0 then items
    else UpdateAll(UpdateList(items, incoming[0]), incoming[1..])
  }

  /** Uniqueness survives any sequence of updates, and every list entry
      that is not a data item stays where it was. */
  lemma {:induction false} UpdateAllKeepsDistinct(items: seq<ListItem>, incoming: seq<ListItem>)
    requires forall k :: 0 <= k < |incoming| ==> incoming[k].DataItem?
    requires DistinctAddresses(items)
    ensures DistinctAddresses(UpdateAll(items, incoming))
    ensures |UpdateAll(items, incoming)| >= |items|
    ensures forall k :: 0 <= k < |items| && !items[k].DataItem? ==> UpdateAll(items, incoming)[k] == items[k]
    decreases |incoming|
  {
    if |incoming| > 0 {
      var next := UpdateList(items, incoming[0]);
      UpdateListKeepsDistinct(items, incoming[0]);
      UpdateAllKeepsDistinct(next, incoming[1..]);
    }
  }

  /* ---------------------------------------------------------------------
     The initial list (`PopulateListView`)
     --------------------------------------------------------------------- */

  const PairedLabel: string := "PREVIOUSLY PAIRED"
  const DiscoveredLabel: string := "DISCOVERED"

  /** The placeholder service identifier some platform versions report for
      bonded devices. */
  const ZeroUuid: string := "00000000-0000-0000-0000-000000000000"

  /** A bonded device as the platform reports it; its UUID list may be null. */
  datatype BondedDevice = BondedDevice(address: Option<string>, name: Option<string>, uuids: Option<seq<string>>)

  /** The UUIDs other than the all-zero placeholder, in their original order. */
  function WithoutZeroUuid(uuids: seq<string>): (r: seq<string>)
    ensures |r| <= |uuids|
    ensures forall u :: u in r <==> u in uuids && u != ZeroUuid
    decreases |uuids|
  {
    if |uuids| == 0 then []
    else if uuids[0] == ZeroUuid then WithoutZeroUuid(uuids[1..])
    else [uuids[0]] + WithoutZeroUuid(uuids[1..])
  }

  /** The filter keeps relative order: filtering a concatenation is the
      concatenation of the filtered parts. */
  lemma {:induction false} WithoutZeroUuidAppend(a: seq<string>, b: seq<string>)
    ensures WithoutZeroUuid(a + b) == WithoutZeroUuid(a) + WithoutZeroUuid(b)
    decreases |a|
  {
    if |a| > 0 {
      assert (a + b)[1..] == a[1..] + b;
      WithoutZeroUuidAppend(a[1..], b);
    } else {
      assert a + b == b;
    }
  }

  /** A list without the placeholder passes through unchanged. */
  lemma {:induction false} WithoutZeroUuidKeepsRealUuids(uuids: seq<string>)
    requires ZeroUuid !in uuids
    ensures WithoutZeroUuid(uuids) == uuids
    decreases |uuids|
  {
    if |uuids| > 0 {
      assert uuids[0] in uuids;
      assert forall u :: u in uuids[1..] ==> u in uuids;
      WithoutZeroUuidKeepsRealUuids(uuids[1..]);
      assert [uuids[0]] + uuids[1..] == uuids;
    }
  }

  /** The services stored for a bonded device: null stays null. */
  function BondedServices(uuids: Option<seq<string>>): (r: Option<seq<string>>)
    ensures r.None? <==> uuids.None?
    ensures r.Some? ==> r.value == WithoutZeroUuid(uuids.value)
    ensures r.Some? ==> ZeroUuid !in r.value && forall u :: u in r.value ==> u in uuids.value
  {
    match uuids
    case None => None
    case Some(us) => Some(WithoutZeroUuid(us))
  }

  /** What the bonded device's row must hold. */
  predicate IsBondedItem(item: ListItem, device: BondedDevice) {
    && item.DataItem?
    && device.address == Some(item.address)
    && item.name == device.name
    && item.services == BondedServices(device.uuids)
    && item.rssi == 0
    && WellFormed(item)
  }

  predicate SomeAddressMissing(devices: seq<BondedDevice>) {
    exists k :: 0 <= k < |devices| && IsNullOrEmpty(devices[k].address)
  }

  /** One data item per bonded device, in order; the constructor's
      exception for a missing address propagates. */
  function BondedItems(devices: seq<BondedDevice>): (r: Result<seq<ListItem>, Error>)
    ensures r.Failure? <==> SomeAddressMissing(devices)
    ensures r.Success? ==> |r.value| == |devices|
    ensures r.Success? ==> forall k :: 0 <= k < |devices| ==> IsBondedItem(r.value[k], devices[k])
    decreases |devices|
  {
    if |devices| == 0 then Success([])
    else
      var d := devices[0];
      match NewDataItem(d.address, d.name, BondedServices(d.uuids))
      case Failure(e) => Failure(e)
      case Success(first) =>
        match BondedItems(devices[1..])
        case Failure(e) =>
          assert forall k :: 0 <= k < |devices[1..]| ==> devices[1..][k] == devices[k + 1];
          Failure(e)
        case Success(rest) =>
          assert !SomeAddressMissing(devices) by {
            forall k | 0 <= k < |devices|
              ensures !IsNullOrEmpty(devices[k].address)
            {
              if k > 0 {
                assert devices[1..][k - 1] == devices[k];
              }
            }
          }
          assert forall k :: 1 <= k < |devices| ==> devices[1..][k - 1] == devices[k];
          Success([first] + rest)
  }

  /** `PopulateListView`: the paired header, the bonded devices, then the
      "DISCOVERED" status header, so two more entries than bonded devices,
      even when there are none. */
  function PopulateListView(devices: seq<BondedDevice>): (r: Result<seq<ListItem>, Error>)
    ensures r.Failure? <==> SomeAddressMissing(devices)
    ensures r.Success? ==>
      && |r.value| == |devices| + 2
      && r.value[0] == Header(PairedLabel)
      && r.value[|devices| + 1] == Status(DiscoveredLabel)
      && forall k :: 0 <= k < |devices| ==> IsBondedItem(r.value[k + 1], devices[k])
  {
    match BondedItems(devices)
    case Failure(e) => Failure(e)
    case Success(items) =>
      var r := [NewHeader(PairedLabel)] + items + [NewStatus(DiscoveredLabel)];
      assert forall k :: 0 <= k < |devices| ==> r[k + 1] == items[k];
      Success(r)
  }

  /** Bonded devices with distinct addresses give a list with distinct
      data-item addresses, the invariant `UpdateList` then keeps. */
  lemma InitialListDistinct(devices: seq<BondedDevice>)
    requires forall i, j :: 0 <= i < j < |devices| ==> devices[i].address != devices[j].address
    requires PopulateListView(devices).Success?
    ensures DistinctAddresses(PopulateListView(devices).value)
  {
    var r := PopulateListView(devices).value;
    forall i, j | 0 <= i < j < |r| && r[i].DataItem? && r[j].DataItem?
      ensures r[i].address != r[j].address
    {
      assert IsBondedItem(r[(i - 1) + 1], devices[i - 1]);
      assert IsBondedItem(r[(j - 1) + 1], devices[j - 1]);
    }
  }

  const ScenarioAddress: string := "AA:BB:CC:DD:EE:FF"

  /** A session: an empty bonded set, a new phone, then the same phone with a
      new name, no services and a new reading. The second update replaces
      the third entry in place. */
  lemma ReconcileScenario()
    ensures PopulateListView([]) == Success([Header(PairedLabel), Status(DiscoveredLabel)])
    ensures var phone := SetRssi(NewDataItem(Some(ScenarioAddress), Some("Phone"), Some(["service1"])).value, -60);
            var phone2 := SetRssi(NewDataItem(Some(ScenarioAddress), Some("Phone2"), Some([])).value, -70);
            var once := UpdateList([Header(PairedLabel), Status(DiscoveredLabel)], phone);
            && once == [Header(PairedLabel), Status(DiscoveredLabel), phone]
            && UpdateList(once, phone2) == [Header(PairedLabel), Status(DiscoveredLabel), phone2]
  {
    var initial := [Header(PairedLabel), Status(DiscoveredLabel)];
    assert [NewHeader(PairedLabel)] + [] + [NewStatus(DiscoveredLabel)] == initial;
    var phone := SetRssi(NewDataItem(Some(ScenarioAddress), Some("Phone"), Some(["service1"])).value, -60);
    var phone2 := SetRssi(NewDataItem(Some(ScenarioAddress), Some("Phone2"), Some([])).value, -70);
    UpdateListAppends(initial, phone);
    var once := initial + [phone];
    assert once == [Header(PairedLabel), Status(DiscoveredLabel), phone];
    UpdateListReplaces(once, phone2, 2);
    assert once[2 := phone2] == [Header(PairedLabel), Status(DiscoveredLabel), phone2];
  }

  /* ---------------------------------------------------------------------
     BLE scan results (`AdScanCallback.OnScanResult`)
     --------------------------------------------------------------------- */

  /** The service every forwarded advertisement must carry. */
  const ServiceUuidFilter: string := "0000cafe-0000-1000-8000-00805f9b34fb"

  /** A scan result: the device identity, the advertised service UUIDs
      (null when the record has none) and the signal strength. */
  datatype ScanResult = ScanResult(address: Option<string>, name: Option<string>,
                                   serviceUuids: Option<seq<string>>, rssi: int)

  /** The advertised UUIDs, a null list read as empty. */
  function AdvertisedUuids(result: ScanResult): seq<string> {
    result.serviceUuids.GetOr([])
  }

  /** `OnScanResult`: with a non-empty filter, a result advertising no UUID
      equal to it is dropped (`None`) before any item is built. Otherwise a
      data item with the device's address and name, all advertised UUIDs in
      order and the result's RSSI is forwarded to the list. */
  function OnScanResult(filter: string, result: ScanResult): (r: Result<Option<ListItem>, Error>)
    ensures r == Success(None) <==> filter != "" && filter !in AdvertisedUuids(result)
    ensures r.Failure? <==> (filter == "" || filter in AdvertisedUuids(result)) && IsNullOrEmpty(result.address)
    ensures r.Success? && r.value.Some? ==>
      && var item := r.value.value;
      && item.DataItem?
      && Some(item.address) == result.address
      && item.name == result.name
      && item.services == Some(AdvertisedUuids(result))
      && item.rssi == result.rssi
      && WellFormed(item)
  {
    var uuids := AdvertisedUuids(result);
    if filter != "" && filter !in uuids then Success(None)
    else
      match NewDataItem(result.address, result.name, Some(uuids))
      case Failure(e) => Failure(e)
      case Success(item) => Success(Some(SetRssi(item, result.rssi)))
  }

  /** A scan result carried through to the list: with the filter in force,
      a result without the filter UUID leaves the list alone, and one with
      it either throws for a missing address or ends up listed with its
      address and reading: refreshed in place when the address is already
      listed, appended otherwise. */
  function ApplyScanResult(items: seq<ListItem>, result: ScanResult): (r: Result<seq<ListItem>, Error>)
    ensures r.Failure? <==> ServiceUuidFilter in AdvertisedUuids(result) && IsNullOrEmpty(result.address)
    ensures r.Success? && ServiceUuidFilter !in AdvertisedUuids(result) ==> r.value == items
    ensures r.Success? && ServiceUuidFilter in AdvertisedUuids(result) ==>
      && (|r.value| == |items| || |r.value| == |items| + 1)
      && exists k :: 0 <= k < |r.value| && HasAddress(r.value[k], result.address.value) && r.value[k].rssi == result.rssi
    ensures r.Success? && ServiceUuidFilter in AdvertisedUuids(result) ==>
      && OnScanResult(ServiceUuidFilter, result).value.value in r.value
      && forall k :: 0 <= k < |items| && !HasAddress(items[k], result.address.value) ==> r.value[k] == items[k]
    ensures r.Success? && ServiceUuidFilter in AdvertisedUuids(result) ==>
      (|r.value| == |items| + 1 <==> NoneHasAddress(items, result.address.value))
    ensures r.Success? && ServiceUuidFilter in AdvertisedUuids(result) && !NoneHasAddress(items, result.address.value) ==>
      r.value == items[FindIndex(items, result.address.value) := OnScanResult(ServiceUuidFilter, result).value.value]
  {
    match OnScanResult(ServiceUuidFilter, result)
    case Failure(e) => Failure(e)
    case Success(None) => Success(items)
    case Success(Some(item)) =>
      var r := UpdateList(items, item);
      assert exists k :: 0 <= k < |r| && r[k] == item;
      var i := FindIndex(items, item.address);
      if i >= 0 then
        UpdateListReplaces(items, item, i);
        Success(r)
      else Success(r)
  }

  /** Scan results never break address uniqueness. */
  lemma ApplyScanResultKeepsDistinct(items: seq<ListItem>, result: ScanResult)
    requires DistinctAddresses(items)
    requires ApplyScanResult(items, result).Success?
    ensures DistinctAddresses(ApplyScanResult(items, result).value)
  {
    var o := OnScanResult(ServiceUuidFilter, result);
    if o.value.Some? {
      UpdateListKeepsDistinct(items, o.value.value);
    }
  }

  /* ---------------------------------------------------------------------
     Scanning start/stop guard (`StartScanning`, `StopScanning`)
     --------------------------------------------------------------------- */

  /** The calls made into the platform's BLE scanner. */
  datatype PlatformCall = StartScan | StopScan

  /** What the activity asks for: `OnCreate` and `OnResume` start
      scanning, `OnPause` and `OnDestroy` stop it. */
  datatype Request = Start | Stop
  datatype Lifecycle = OnCreate | OnResume | OnPause | OnDestroy

  function RequestOf(event: Lifecycle): (r: Request)
    ensures r == Start <==> event == OnCreate || event == OnResume
  {
    match event
    case OnCreate => Start
    case OnResume => Start
    case OnPause => Stop
    case OnDestroy => Stop
  }

  /** One step of the `_isDiscovering` guard: the new flag, and the
      platform call made, if any. */
  datatype Step = Step(discovering: bool, call: Option<PlatformCall>)

  /** `StartScanning`: a no-op while discovering; otherwise starts the scan. */
  function StartScanning(discovering: bool): (s: Step)
    ensures s.discovering
    ensures s.call.Some? <==> !discovering
    ensures s.call.Some? ==> s.call.value == StartScan
  {
    if discovering then Step(true, None) else Step(true, Some(StartScan))
  }

  /** `StopScanning`: a no-op while not discovering; otherwise stops it. */
  function StopScanning(discovering: bool): (s: Step)
    ensures !s.discovering
    ensures s.call.Some? <==> discovering
    ensures s.call.Some? ==> s.call.value == StopScan
  {
    if !discovering then Step(false, None) else Step(false, Some(StopScan))
  }

  function Handle(discovering: bool, req: Request): Step {
    match req
    case Start => StartScanning(discovering)
    case Stop => StopScanning(discovering)
  }

  /** The platform calls a run of requests makes, and the final flag. */
  function Run(discovering: bool, reqs: seq<Request>): (bool, seq<PlatformCall>)
    decreases |reqs|
  {
    if |reqs| == 0 then (discovering, [])
    else
      var s := Handle(discovering, reqs[0]);
      var (d, calls) := Run(s.discovering, reqs[1..]);
      (d, (if s.call.Some? then [s.call.value] else []) + calls)
  }

  /** The call that flips a flag of the given value. */
  function Toggle(discovering: bool): PlatformCall {
    if discovering then StopScan else StartScan
  }

  /** Calls alternate between start and stop, beginning with the call that
      flips `discovering`. */
  predicate Alternates(discovering: bool, calls: seq<PlatformCall>) {
    forall k :: 0 <= k < |calls| ==> calls[k] == Toggle(if k % 2 == 0 then discovering else !discovering)
  }

  /** Whatever the requests, the platform sees start and stop strictly
      alternating, and the flag ends flipped once per call made. */
  lemma {:induction false} RunAlternates(discovering: bool, reqs: seq<Request>)
    ensures Alternates(discovering, Run(discovering, reqs).1)
    ensures Run(discovering, reqs).0 == (if |Run(discovering, reqs).1| % 2 == 0 then discovering else !discovering)
    decreases |reqs|
  {
    if |reqs| > 0 {
      var s := Handle(discovering, reqs[0]);
      RunAlternates(s.discovering, reqs[1..]);
      var rest := Run(s.discovering, reqs[1..]).1;
      if s.call.Some? {
        var calls := [s.call.value] + rest;
        forall k | 0 <= k < |calls|
          ensures calls[k] == Toggle(if k % 2 == 0 then discovering else !discovering)
        {
          if k > 0 {
            assert calls[k] == rest[k - 1];
          }
        }
      }
    }
  }

  /** From the activity's initial state the first call is a start and no
      two starts (or stops) are ever adjacent. */
  lemma LifecycleCallsAlternate(events: seq<Lifecycle>)
    ensures var calls := Run(false, seq(|events|, k requires 0 <= k < |events| => RequestOf(events[k]))).1;
      && (|calls| > 0 ==> calls[0] == StartScan)
      && forall k :: 0 <= k < |calls| - 1 ==> calls[k] != calls[k + 1]
  {
    var reqs := seq(|events|, k requires 0 <= k < |events| => RequestOf(events[k]));
    RunAlternates(false, reqs);
  }
}

=== FILE: string_join.dfy ===
/** `string.Join(", ", parts)` and its inverse. Service identifiers are UUID
    strings, which never contain a comma, so splitting the joined text at
    each ", " recovers the parts exactly. */
module StringJoin {

  const Separator: string := ", "

  /** Total number of characters in the parts. */
  function TotalLength(xs: seq<string>): nat {
    if |xs| == 0 then 0 else |xs[0]| + TotalLength(xs[1..])
  }

  /** The parts in order with `Separator` between neighbours. */
  function Join(xs: seq<string>): (r: string)
    ensures |xs| == 0 ==> r == ""
    ensures |xs| >= 1 ==> |r| == TotalLength(xs) + |Separator| * (|xs| - 1)
    ensures |xs| >= 1 ==> r[..|xs[0]|] == xs[0]
  {
    if |xs| == 0 then ""
    else if |xs| == 1 then xs[0]
    else xs[0] + Separator + Join(xs[1..])
  }

  /** Cuts `s` at every occurrence of `Separator`. */
  function Split(s: string): (r: seq<string>)
    ensures |r| >= 1
    decreases |s|
  {
    if |s| == 0 then [""]
    else if |s| >= 2 && s[..2] == Separator then [""] + Split(s[2..])
    else
      var rest := Split(s[1..]);
      [[s[0]] + rest[0]] + rest[1..]
  }

  predicate NoComma(x: string) {
    forall i :: 0 <= i < |x| ==> x[i] != ','
  }

  lemma {:induction false} SplitPrefix(x: string, t: string)
    requires NoComma(x)
    ensures Split(x + Separator + t) == [x] + Split(t)
    decreases |x|
  {
    var s := x + Separator + t;
    if |x| == 0 {
      assert s == Separator + t;
      assert s[..2] == Separator;
      assert s[2..] == t;
    } else {
      assert s[0] == x[0];
      assert s[..2] != Separator;
      assert s[1..] == x[1..] + Separator + t;
      SplitPrefix(x[1..], t);
      assert [x[0]] + x[1..] == x;
    }
  }

  lemma {:induction false} SplitSingle(x: string)
    requires NoComma(x)
    ensures Split(x) == [x]
    decreases |x|
  {
    if |x| > 0 {
      if |x| >= 2 {
        assert x[..2][0] == x[0] != ',';
      }
      SplitSingle(x[1..]);
      assert [x[0]] + x[1..] == x;
    }
  }

  /** Splitting a join of comma-free parts returns the parts. */
  lemma {:induction false} SplitJoin(xs: seq<string>)
    requires |xs| >= 1
    requires forall k :: 0 <= k < |xs| ==> NoComma(xs[k])
    ensures Split(Join(xs)) == xs
    decreases |xs|
  {
    if |xs| == 1 {
      SplitSingle(xs[0]);
    } else {
      SplitJoin(xs[1..]);
      SplitPrefix(xs[0], Join(xs[1..]));
      assert [xs[0]] + xs[1..] == xs;
    }
  }

  /** Joining is left to right: adding a part appends the separator and it. */
  lemma {:induction false} JoinAppend(xs: seq<string>, x: string)
    requires |xs| >= 1
    ensures Join(xs + [x]) == Join(xs) + Separator + x
    decreases |xs|
  {
    if |xs| > 1 {
      assert (xs + [x])[1..] == xs[1..] + [x];
      JoinAppend(xs[1..], x);
    } else {
      assert (xs + [x])[1..] == [x];
    }
  }
}

=== FILE: wrappers.dfy ===
/** Failure-carrying datatypes shared by the model: `Option` stands for a
    nullable reference, `Result` for a call that either returns or throws. */
module Wrappers {

  /** A value that may be absent (a C# `null` or a Python `None`). */
  datatype Option<+T> = None | Some(value: T) {

    /** The wrapped value, or `default` when absent. */
    function GetOr(default: T): T {
      match this
      case Some(v) => v
      case None => default
    }
  }

  /** A computation that either succeeds with a value or raises an error. */
  datatype Result<+R, +E> = Success(value: R) | Failure(error: E)
}
